=== FILE: README.md ===
# To-do list state: partition, paging, add and toggle

This project models, in Dafny, the list state of a small to-do web application's
home page. The page keeps the whole list in memory as a flat sequence of
`{id, text, completed}` records. It derives a TO DO section (the incomplete
entries) and a DONE section (the completed ones) with two filters, pages each
section by its own 1-based cursor ten entries at a time, and patches the list
when an add or a toggle succeeds. Two versions of the page are modelled: the
paginated one, whose handlers wait on the remote task service, and a second,
local-only one that appends items and renders the sections whole. The
add-a-task text box is modelled too: its trim-and-non-blank guard, the reset
after a submit, and the `isEmpty` flag of its button.

Modules, one per concept:

- `Api`: the outcome of an awaited remote call (`Resolved(value)` or `Rejected`) and the fields of the service's task record that the page reads.
- `TodoList`: the `Todo` record, the partition `Section`, and the map-by-id toggle `SetCompleted`. It also holds the lemmas that the partition is a total, disjoint, order-keeping merge, and the lemmas about toggling.
- `Pagination`: JavaScript's `Array.prototype.slice` including its negative-index and clamping rules, the page window, `Math.ceil(n / size)` page counts, and the prev/next controls.
- `HomeClient`: the paginated page as a state machine over `(todos, todoPage, donePage)`, with every gesture as one transition.
- `LocalHome`: a second, local-only version of the page.
- `TodoInput` and `Text`: the text box, and `String.prototype.trim` with JavaScript's white-space set.
- `IdString`: the decimal text of the service's numeric ids, with a proof that it reads back, so distinct ids give distinct keys.

Where the code does something one might not expect, the model follows the code:

- A successful toggle writes the completion value the client asked for. It does not write the service's reply (`HomeClient.ToggleIgnoresReply`).
- The page cursors are never clamped. "next" is disabled only when the cursor equals the page count. After a toggle empties the last page, the cursor is left past the end and the section renders nothing (`HomeClient.CursorCanOutrunPages`). When the section falls to exactly ten entries this way, the paging controls disappear as well, so the user cannot page back (`HomeClient.StrandedOnEmptyPage`). The entries come back into view when an add resets the cursor, or when an entry is moved back to TO DO from the DONE section (`HomeClient.UncompleteUnstrands`). When the section still overflows a page, "next" stays enabled past the end and pushes the cursor further out (`HomeClient.NextPastEndStillEnabled`). Cursors can never go below 1 (`HomeClient.RunKeepsCursorsValid`).
- The add button is never disabled. Its `isEmpty` flag only picks the colours, and a press on blank input does nothing (`TodoInput.NotEmptyExactlyWhenSubmitting`).
- The sections keep list order. There is no sort by id.
- The paginated add takes the completion flag from the service's reply. It is not forced to false. The local-only add does force it to false.

## Model

| member | source | states |
|---|---|---|
| `TodoList.Section` | src/app/HomeClient.tsx:64-65 | each section is no longer than the list, and every entry in it has that section's completion state |
| `TodoList.SectionMembers` | src/app/HomeClient.tsx:64-65 | an entry is in a section exactly when it is in the list with that section's completion state |
| `TodoList.PartitionInterleaves` | src/app/HomeClient.tsx:64-65 | the TO DO and DONE sections merge back, in order, into the list they were cut from |
| `TodoList.PartitionCounts` | src/app/HomeClient.tsx:64-65 | every entry lands in exactly one section: the section sizes add up to the list size, and the section multisets add up to the list's |
| `TodoList.PartitionKeepsOrder` | src/app/HomeClient.tsx:64-65 | each section is an ordered subsequence of the list |
| `TodoList.PartitionUnique` | src/app/page.tsx:33-34 | any order-keeping split into an all-incomplete and an all-completed list is exactly the pair of filters |
| `TodoList.SetCompleted` | src/app/HomeClient.tsx:56 | a toggle keeps length, order, ids and texts, and changes `completed` only on entries whose id matches |
| `TodoList.SetCompletedAbsent` | src/app/HomeClient.tsx:56 | toggling an id no entry carries leaves the list unchanged |
| `TodoList.SetCompletedRevert` | src/app/page.tsx:29-31 | setting an id to the other state and back restores the list when every entry with that id started in the first state |
| `TodoList.SetCompletedKeepsUniqueIds` | src/app/page.tsx:29-31 | a toggle never makes two entries share an id |
| `TodoList.SetCompletedMoves` | src/app/HomeClient.tsx:56 | toggling the one entry with an id to the other state grows the target section by one, shrinks the source section by one, and the old entry is gone from the list |
| `TodoList.SetCompletedSplit` | src/app/HomeClient.tsx:56 | toggling the one entry with an id rewrites that entry alone and leaves the entries before and after it as they were |
| `TodoList.SectionEntries` | src/app/HomeClient.tsx:64-65 | every entry of a section is an entry of the list with that section's completion state |
| `Pagination.Slice` | src/app/HomeClient.tsx:70 | for non-negative bounds, `slice` is the sub-range with both ends clamped to the length |
| `Pagination.TotalPages` | src/app/HomeClient.tsx:77-78 | the page count is the ceiling of n / size: enough pages to hold n entries, one fewer would not do, and 0 exactly for an empty section |
| `Pagination.WindowContents` | src/app/HomeClient.tsx:68-74 | the window on page p >= 1 has `min(size, max(0, n - (p-1)*size))` entries, which are the section's entries from index (p-1)*size on |
| `Pagination.Window` | src/app/HomeClient.tsx:68-74 | whatever the cursor, including cursors below 1 where `slice` counts from the end, the window holds at most one page of entries, all taken from its section |
| `Pagination.LastPage` | src/app/HomeClient.tsx:77-78 | a non-empty section's last page holds `n - (totalPages-1)*size` entries, between 1 and size |
| `Pagination.PastLastPageEmpty` | src/app/HomeClient.tsx:68-78 | every page after the last one renders empty |
| `Pagination.PagesTile` | src/app/HomeClient.tsx:68-78 | pages 1 to totalPages, read in order, show every entry of the section exactly once |
| `Pagination.ControlsMeanSeveralPages` | src/app/HomeClient.tsx:130 | the controls are shown exactly when the section has at least two pages |
| `Pagination.ControlsInRange` | src/app/HomeClient.tsx:130-158 | with the cursor on an existing page, "prev" is enabled exactly above page 1, and "next" exactly when the following page is non-empty |
| `HomeClient.Init` | src/app/HomeClient.tsx:22-30 | the page mounts with the given list and both cursors on page 1 |
| `HomeClient.FromServer` | src/app/HomeClient.tsx:37-41 | the new entry's key reads back as the service's numeric id, and its text and flag are the reply's name and completion flag |
| `HomeClient.AddTodo` | src/app/HomeClient.tsx:32-51 | a successful create puts the new entry at index 0, keeps the old list as the tail, resets the TO DO cursor to 1 and keeps the DONE cursor, and a new key absent from the list keeps ids unique; a rejected create changes nothing |
| `HomeClient.ToggleTodo` | src/app/HomeClient.tsx:53-61 | a successful update rewrites `completed` to the requested value on the matching entries only and moves no cursor; a rejected update changes nothing |
| `HomeClient.RenderSection` | src/app/HomeClient.tsx:67-150 | the page count is `Math.ceil(n / 10)` of the section's size n; controls are shown exactly when n > 10, that is, at least two pages; prev is disabled exactly on page 1 and next exactly on the last page; on any cursor >= 1 the section renders the sub-range of its entries for that page |
| `HomeClient.TabToggle` | src/components/TodoTab.tsx:29-31 | a tab asks for the opposite of its entry's current state |
| `HomeClient.Render` | src/app/HomeClient.tsx:64-78 | whatever the cursors, the TO DO section shows at most one page of incomplete entries of the list, and the DONE section at most one page of completed ones |
| `HomeClient.Step` | src/app/HomeClient.tsx:130-233 | paging clicks never change the list and move only their own section's cursor; with the controls shown, prev on any page but 1 moves to the page before, next on any page but the page count moves to the page after; a hidden control or a disabled button (prev on page 1, next on the page count) leaves the state alone |
| `HomeClient.NextReachesEntries` | src/app/HomeClient.tsx:148-150 | from a page before the last one, "next" is enabled and lands on a page that shows entries |
| `HomeClient.StepKeepsCursorsValid` | src/app/HomeClient.tsx:130-233 | no gesture moves a cursor below page 1 |
| `HomeClient.RunKeepsCursorsValid` | src/app/HomeClient.tsx:130-233 | every state a session reaches from a valid state has both cursors at page 1 or later |
| `HomeClient.PagingKeepsTodos` | src/app/HomeClient.tsx:130-233 | prev/next clicks never change the list |
| `HomeClient.AddShowsNewItemFirst` | src/app/HomeClient.tsx:36-46 | a successful add of an incomplete item puts it at the front of the TO DO section, leaves DONE unchanged, and shows it first on page 1 |
| `HomeClient.TabToggleMoves` | src/app/HomeClient.tsx:117-124 | with unique ids, a tab's toggle moves its entry to the other section: one section grows by one and the other shrinks by one |
| `HomeClient.ToggleIgnoresReply` | src/app/HomeClient.tsx:55-56 | the state after a successful toggle does not depend on the service's reply |
| `HomeClient.CursorCanOutrunPages` | src/app/HomeClient.tsx:145-150 | completing the only entry on the last TO DO page leaves the cursor past the page count and the section renders no entries |
| `HomeClient.StrandedOnEmptyPage` | src/app/HomeClient.tsx:130-150 | with eleven incomplete entries and the cursor on page 2, completing the entry on page 2 leaves the cursor on an empty page 2 with the controls gone, so neither paging click changes anything |
| `HomeClient.UncompleteUnstrands` | src/app/HomeClient.tsx:190-197 | from the stranded page, un-completing the entry from its DONE tab brings TO DO back to eleven entries, so the controls return and page 2 shows an entry again |
| `HomeClient.NextPastEndStillEnabled` | src/app/HomeClient.tsx:148-150 | with the cursor past the page count and the section overflowing a page, "next" still moves the cursor one further, onto another empty page |
| `HomeClient.AddKeepsUniqueIds` | src/app/HomeClient.tsx:36-43 | when no key in the list reads back as the service's new numeric id, the add keeps ids unique |
| `HomeClient.RunKeepsUniqueIds` | src/app/HomeClient.tsx:32-61 | when every successful create replies with a fresh numeric id, every state of a session keeps ids unique, so the unique-id toggle lemmas apply throughout |
| `LocalHome.AddTodo` | src/app/page.tsx:20-27 | the old list is a prefix, the new incomplete item is last, the TO DO section grows by exactly that item, DONE is unchanged, and a fresh id keeps ids unique |
| `LocalHome.ToggleTodo` | src/app/page.tsx:29-31 | entries with another id are unchanged, and matching entries change only in `completed` |
| `LocalHome.Render` | src/app/page.tsx:33-34 | the two sections are a total, disjoint, order-keeping split of the list by completion |
| `LocalHome.ToggleRoundTrip` | src/app/page.tsx:29-31 | toggling an id to done and back restores the list when the item started incomplete |
| `LocalHome.AddThenRender` | src/app/page.tsx:20-34 | after an add, the TO DO section shows the new item last and is one longer, and DONE is unchanged |
| `TodoInput.HandleAdd` | src/components/TodoInput.tsx:15-20 | blank input hands nothing on and keeps the value; otherwise the box clears and, when `onAdd` is supplied, it receives the trimmed, non-empty text with no outer white space |
| `TodoInput.KeyPress` | src/components/TodoInput.tsx:22-26 | only Enter submits; any other key leaves the value and calls nothing |
| `TodoInput.IsEmpty` | src/components/TodoInput.tsx:48 | `isEmpty` holds exactly when the input is all white space |
| `TodoInput.NotEmptyExactlyWhenSubmitting` | src/components/TodoInput.tsx:48 | `isEmpty` is false exactly when pressing the add button would hand text on; the button itself is never disabled, so on blank input a press does nothing |
| `TodoInput.AddedTextIsStable` | src/components/TodoInput.tsx:16-17 | the text handed on passes the guard again unchanged |
| `Text.Trim` | src/components/TodoInput.tsx:16 | trimmed text neither starts nor ends with white space, and is empty exactly when the input is blank |
| `Text.TrimSplits` | src/components/TodoInput.tsx:16 | the input is white space, then the trimmed text, then white space |
| `Text.TrimUnique` | src/components/TodoInput.tsx:16 | any split into white space, a middle that does not start or end with white space, and white space has the trimmed text as its middle |
| `Text.TrimIdempotent` | src/components/TodoInput.tsx:16-17 | trimming twice is trimming once |
| `IdString.Show` | src/app/HomeClient.tsx:38 | the text of an id is non-empty and starts with a digit exactly for non-negative ids |
| `IdString.ParseShow` | src/app/HomeClient.tsx:38 | the text of an id reads back as that id |
| `IdString.ShowInjective` | src/app/HomeClient.tsx:38 | distinct ids give distinct keys |

## Left out

- The remote service calls in src/lib/api.ts (`fetch`, the fixed base URL and tenant, JSON decoding) are not modelled. Each awaited call is an input that resolves with a reply or is rejected.
- The initial list load is not modelled. The paginated page receives its list from its parent, and the model starts from any list (`HomeClient.Init`).
- `Date.now()` id generation in the local-only page is not modelled. The new id is a parameter (`LocalHome.AddTodo`), and uniqueness is promised only when that id is fresh.
- `console.error` and `alert` on a failed call are not modelled. Only the fact that the state is left unchanged is.
- React's state scheduling and stale closures are not modelled. Handlers read the `todos` of the render that created them, so two overlapping async handlers can overwrite each other. The model runs each handler as one synchronous transition.
- Typing into the box (`onChange`) is not modelled as a separate step. It only replaces the value.
- Markup, icons, images, styling, the skeleton loader and the route to the detail page are left out. So are the detail page's edit, memo, image upload and delete, and the record fields `memo`, `imageUrl` and `tenantId`. None of them touches the list state.
- `Pagination.TotalPages` is integer ceiling division. `Math.ceil(n / size)` on floating-point numbers agrees with it for all list lengths below 2^53.
- Strings are sequences of Unicode code points, while JavaScript strings are UTF-16 code units and may hold lone surrogates. `Text.Trim` still agrees with `trim` on every string the model can hold, because every white-space code point lies in the Basic Multilingual Plane.
- `IdString.Show` covers only the plain-digit form of `Number.prototype.toString`. It does not model the exponent form used at 1e21 and above, or non-integer ids.
- `HomeClient.RenderSection` states the window only for cursors of 1 or more. `HomeClient.RunKeepsCursorsValid` shows that no smaller cursor is reachable.

=== FILE: api.dfy ===
/**
  The remote task service, reduced to what the list page sees of it.

  Every call in src/lib/api.ts is a `fetch` that either resolves with the
  decoded JSON body or throws when the response is not ok. The model keeps
  only that outcome: a call is `Resolved` with the service's reply or
  `Rejected`; which one happens is an input to the handlers.
*/
module Api {

  /** The outcome of one awaited remote call. */
  datatype Call<+T> = Resolved(value: T) | Rejected

  /** The part of the service's `TodoItem` wire record the list page reads:
      a numeric id, the title `name` and the `isCompleted` flag. */
  datatype ServerTodo = ServerTodo(id: int, name: string, isCompleted: bool)
}

=== FILE: home_client.dfy ===
/**
  The paginated home page: the whole list in memory, a TO DO and a DONE
  section each paged by its own cursor, and handlers that patch the list once
  the awaited remote call has resolved. Each handler is one synchronous state
  transition; the remote call's outcome is an input.
*/
module HomeClient {
  import opened Api
  import opened TodoList
  import opened Pagination
  import IdString
  import Options

  /** `todos`, `todoCurrentPage` and `doneCurrentPage`. */
  datatype State = State(todos: seq<Todo>, todoPage: int, donePage: int)

  /** Both cursors are on page 1 or later. */
  predicate CursorsValid(st: State) {
    st.todoPage >= 1 && st.donePage >= 1
  }

  /** The state the page mounts with: the list it was given, both cursors on page 1. */
  function Init(initialTodos: seq<Todo>): (st: State)
    ensures st.todos == initialTodos
    ensures st.todoPage == 1 && st.donePage == 1
    ensures CursorsValid(st)
  {
    State(initialTodos, 1, 1)
  }

  /** The list entry built from the service's reply to a create: the numeric
      id as decimal text, the name as the text, the service's completion flag. */
  function FromServer(t: ServerTodo): (r: Todo)
    ensures IdString.Parse(r.id) == Options.Some(t.id)
    ensures r.text == t.name && r.completed == t.isCompleted
  {
    IdString.ParseShow(t.id);
    Todo(IdString.Show(t.id), t.name, t.isCompleted)
  }

  /** `handleAddTodo`: once `createTodo` resolves, the new entry goes to the
      front of the list and the TO DO cursor returns to page 1; a rejected
      call changes nothing. */
  function AddTodo(st: State, created: Call<ServerTodo>): (r: State)
    ensures created.Rejected? ==> r == st
    ensures created.Resolved? ==>
      && |r.todos| == |st.todos| + 1
      && r.todos[0] == FromServer(created.value)
      && r.todos[1..] == st.todos
      && r.todoPage == 1
      && r.donePage == st.donePage
    ensures created.Resolved? && UniqueIds(st.todos)
      && (forall i :: 0 <= i < |st.todos| ==> st.todos[i].id != IdString.Show(created.value.id))
      ==> UniqueIds(r.todos)
  {
    match created
    case Rejected => st
    case Resolved(t) => State([FromServer(t)] + st.todos, 1, st.donePage)
  }

  /** `handleToggleTodo`: once `updateTodo` resolves, every entry with the id
      takes the completion value the client asked for (the reply itself is not
      read); neither cursor moves. A rejected call changes nothing. */
  function ToggleTodo(st: State, id: string, isCompleted: bool, updated: Call<ServerTodo>): (r: State)
    ensures updated.Rejected? ==> r == st
    ensures updated.Resolved? ==>
      && |r.todos| == |st.todos|
      && (forall i :: 0 <= i < |r.todos| ==>
            && r.todos[i].id == st.todos[i].id
            && r.todos[i].text == st.todos[i].text
            && r.todos[i].completed == (if st.todos[i].id == id then isCompleted else st.todos[i].completed))
      && r.todoPage == st.todoPage
      && r.donePage == st.donePage
  {
    match updated
    case Rejected => st
    case Resolved(_) => st.(todos := SetCompleted(st.todos, id, isCompleted))
  }

  /** What one section renders. */
  datatype SectionView = SectionView(
    items: seq<Todo>,
    totalPages: nat,
    controls: bool,
    prevDisabled: bool,
    nextDisabled: bool)

  function RenderSection(all: seq<Todo>, page: int): (v: SectionView)
    ensures page >= 1 ==>
      && |v.items| == Min(PageSize, Max(0, |all| - (page - 1) * PageSize))
      && forall i :: 0 <= i < |v.items| ==> v.items[i] == all[(page - 1) * PageSize + i]
    ensures v.totalPages == TotalPages(|all|, PageSize)
    ensures v.controls <==> |all| > PageSize
    ensures v.controls <==> v.totalPages >= 2
    ensures v.prevDisabled <==> page == 1
    ensures v.nextDisabled <==> page == v.totalPages
  {
    var total := TotalPages(|all|, PageSize);
    WindowContents(all, page, PageSize);
    ControlsMeanSeveralPages(|all|, PageSize);
    SectionView(Window(all, page, PageSize), total, ControlsShown(|all|, PageSize),
                PrevDisabled(page), NextDisabled(page, total))
  }

  datatype View = View(todo: SectionView, done: SectionView)

  /** The rendered page: the TO DO section from the incomplete entries, the
      DONE section from the completed ones, each at its own cursor. Whatever
      the cursors, each section shows at most one page, and only entries of
      the list in that section's completion state. */
  function Render(st: State): (v: View)
    ensures |v.todo.items| <= PageSize && |v.done.items| <= PageSize
    ensures forall i :: 0 <= i < |v.todo.items| ==> v.todo.items[i] in st.todos && !v.todo.items[i].completed
    ensures forall i :: 0 <= i < |v.done.items| ==> v.done.items[i] in st.todos && v.done.items[i].completed
  {
    SectionEntries(st.todos, false);
    SectionEntries(st.todos, true);
    View(RenderSection(Section(st.todos, false), st.todoPage),
         RenderSection(Section(st.todos, true), st.donePage))
  }

  /** The user's gestures, with the outcome of any remote call they make. */
  datatype Event =
    | Add(created: Call<ServerTodo>)
    | Toggle(id: string, isCompleted: bool, updated: Call<ServerTodo>)
    | TodoPrev | TodoNext | DonePrev | DoneNext

  /** The toggle a `TodoTab` fires for the entry it shows: the opposite of the
      entry's current state. */
  function TabToggle(t: Todo, updated: Call<ServerTodo>): (e: Event)
    ensures e.Toggle? && e.id == t.id && e.isCompleted != t.completed
  {
    Toggle(t.id, !t.completed, updated)
  }

  /** One gesture. A prev/next click only happens when the control is shown
      and not disabled; otherwise there is nothing to click. Paging never
      touches the list, and each section's buttons move only that section's
      cursor, by at most one page. */
  function Step(st: State, e: Event): (r: State)
    ensures !e.Add? && !e.Toggle? ==> r.todos == st.todos
    ensures e.TodoPrev? || e.TodoNext? ==> r.donePage == st.donePage && -1 <= r.todoPage - st.todoPage <= 1
    ensures e.DonePrev? || e.DoneNext? ==> r.todoPage == st.todoPage && -1 <= r.donePage - st.donePage <= 1
    ensures e.TodoPrev? || e.DonePrev? ==> r.todoPage <= st.todoPage && r.donePage <= st.donePage
    ensures e.TodoNext? || e.DoneNext? ==> r.todoPage >= st.todoPage && r.donePage >= st.donePage
    ensures e.TodoPrev? ==> r == (if ControlsShown(|Section(st.todos, false)|, PageSize) && st.todoPage != 1
                                  then st.(todoPage := st.todoPage - 1) else st)
    ensures e.DonePrev? ==> r == (if ControlsShown(|Section(st.todos, true)|, PageSize) && st.donePage != 1
                                  then st.(donePage := st.donePage - 1) else st)
    ensures e.TodoNext? ==>
      var total := TotalPages(|Section(st.todos, false)|, PageSize);
      r == (if ControlsShown(|Section(st.todos, false)|, PageSize) && st.todoPage != total
            then st.(todoPage := st.todoPage + 1) else st)
    ensures e.DoneNext? ==>
      var total := TotalPages(|Section(st.todos, true)|, PageSize);
      r == (if ControlsShown(|Section(st.todos, true)|, PageSize) && st.donePage != total
            then st.(donePage := st.donePage + 1) else st)
  {
    var view := Render(st);
    match e
    case Add(created) => AddTodo(st, created)
    case Toggle(id, isCompleted, updated) => ToggleTodo(st, id, isCompleted, updated)
    case TodoPrev =>
      if view.todo.controls && !view.todo.prevDisabled then st.(todoPage := st.todoPage - 1) else st
    case TodoNext =>
      if view.todo.controls && !view.todo.nextDisabled then st.(todoPage := st.todoPage + 1) else st
    case DonePrev =>
      if view.done.controls && !view.done.prevDisabled then st.(donePage := st.donePage - 1) else st
    case DoneNext =>
      if view.done.controls && !view.done.nextDisabled then st.(donePage := st.donePage + 1) else st
  }

  /** A session: gestures applied in order. */
  function Run(st: State, events: seq<Event>): State
    decreases |events|
  {
    if events == [] then st else Run(Step(st, events[0]), events[1..])
  }

  /** No gesture moves a cursor below page 1: "prev" is disabled on page 1. */
  lemma StepKeepsCursorsValid(st: State, e: Event)
    requires CursorsValid(st)
    ensures CursorsValid(Step(st, e))
  {
  }

  /** Every state a session reaches from mount has both cursors on page 1 or
      later, so every rendered window is a plain sub-range of its section. */
  lemma {:induction false} RunKeepsCursorsValid(st: State, events: seq<Event>)
    requires CursorsValid(st)
    ensures CursorsValid(Run(st, events))
    decreases |events|
  {
    if events != [] {
      StepKeepsCursorsValid(st, events[0]);
      RunKeepsCursorsValid(Step(st, events[0]), events[1..]);
    }
  }

  /** The list entries are never reordered or lost by paging: a session of
      prev/next clicks leaves the list alone. */
  lemma {:induction false} PagingKeepsTodos(st: State, events: seq<Event>)
    requires forall i :: 0 <= i < |events| ==> !events[i].Add? && !events[i].Toggle?
    ensures Run(st, events).todos == st.todos
    decreases |events|
  {
    if events != [] {
      PagingKeepsTodos(Step(st, events[0]), events[1..]);
    }
  }

  /** A successful add of an incomplete item grows the TO DO section by that
      one item at its front, leaves DONE as it was, and shows the new item
      first on the TO DO section's page 1. */
  lemma AddShowsNewItemFirst(st: State, t: ServerTodo)
    requires !t.isCompleted
    ensures var r := AddTodo(st, Resolved(t));
      && Section(r.todos, false) == [FromServer(t)] + Section(st.todos, false)
      && Section(r.todos, true) == Section(st.todos, true)
      && Render(r).todo.items[0] == FromServer(t)
  {
    var r := AddTodo(st, Resolved(t));
    assert r.todos == [FromServer(t)] + st.todos;
    SectionAppend([FromServer(t)], st.todos, false);
    SectionAppend([FromServer(t)], st.todos, true);
  }

  /** Toggling from a tab moves the entry to the other section when its id is
      unique: one section grows by one and the other shrinks by one. */
  lemma TabToggleMoves(st: State, k: nat, reply: ServerTodo)
    requires k < |st.todos| && UniqueIds(st.todos)
    ensures var t := st.todos[k];
      var r := Step(st, TabToggle(t, Resolved(reply)));
      && |Section(r.todos, !t.completed)| == |Section(st.todos, !t.completed)| + 1
      && |Section(r.todos, t.completed)| + 1 == |Section(st.todos, t.completed)|
  {
    SetCompletedMoves(st.todos, k, !st.todos[k].completed);
  }

  /** The toggle writes the requested value whatever the service replies. */
  lemma ToggleIgnoresReply(st: State, id: string, isCompleted: bool, a: ServerTodo, b: ServerTodo)
    ensures ToggleTodo(st, id, isCompleted, Resolved(a)) == ToggleTodo(st, id, isCompleted, Resolved(b))
  {
  }

  /** The cursor is never clamped. When the TO DO cursor is on the last page
      and that page holds a single entry, completing that entry leaves the
      cursor past the last page, and the section renders no entries. */
  lemma CursorCanOutrunPages(st: State, k: nat, reply: ServerTodo)
    requires k < |st.todos| && UniqueIds(st.todos) && !st.todos[k].completed
    requires st.todoPage >= 2
    requires |Section(st.todos, false)| == (st.todoPage - 1) * PageSize + 1
    ensures var r := Step(st, TabToggle(st.todos[k], Resolved(reply)));
      && r.todoPage == st.todoPage
      && r.todoPage > Render(r).todo.totalPages
      && Render(r).todo.items == []
  {
    SetCompletedMoves(st.todos, k, true);
    var r := Step(st, TabToggle(st.todos[k], Resolved(reply)));
    var n := |Section(r.todos, false)|;
    assert n == (st.todoPage - 1) * PageSize;
    var total := TotalPages(n, PageSize);
    assert total < st.todoPage;
    PastLastPageEmpty(Section(r.todos, false), r.todoPage, PageSize);
  }

  /** "next" from a page before the last one always works, and lands on a
      page that shows entries. */
  lemma NextReachesEntries(st: State)
    requires 1 <= st.todoPage < TotalPages(|Section(st.todos, false)|, PageSize)
    ensures var r := Step(st, TodoNext);
      && r.todoPage == st.todoPage + 1
      && Render(r).todo.items != []
  {
    var section := Section(st.todos, false);
    ControlsMeanSeveralPages(|section|, PageSize);
    ControlsInRange(section, st.todoPage, PageSize);
  }

  /** The sharpest effect of the unclamped cursor: with eleven incomplete
      entries and the TO DO cursor on page 2, completing the one on page 2
      leaves ten entries, so the controls disappear while the cursor stays on
      the now empty page 2. Neither paging button can be pressed; the entries
      come back into view only when an add resets the cursor or an entry is
      moved back to TO DO (see `UncompleteUnstrands`). */
  lemma StrandedOnEmptyPage(st: State, k: nat, reply: ServerTodo)
    requires k < |st.todos| && UniqueIds(st.todos) && !st.todos[k].completed
    requires st.todoPage == 2
    requires |Section(st.todos, false)| == PageSize + 1
    ensures var r := Step(st, TabToggle(st.todos[k], Resolved(reply)));
      && r.todoPage == 2
      && Render(r).todo.items == []
      && !Render(r).todo.controls
      && Step(r, TodoPrev) == r
      && Step(r, TodoNext) == r
  {
    CursorCanOutrunPages(st, k, reply);
    SetCompletedMoves(st.todos, k, true);
  }

  /** The other way out of the stranded page: the completed entry is still
      in the DONE section, and un-completing it from its tab brings TO DO back to
      eleven entries, so the controls return and page 2 shows an entry again. */
  lemma UncompleteUnstrands(st: State, k: nat, reply: ServerTodo)
    requires k < |st.todos| && UniqueIds(st.todos) && !st.todos[k].completed
    requires st.todoPage == 2
    requires |Section(st.todos, false)| == PageSize + 1
    ensures var r := Step(st, TabToggle(st.todos[k], Resolved(reply)));
      var r2 := Step(r, TabToggle(r.todos[k], Resolved(reply)));
      && r2.todoPage == 2
      && Render(r2).todo.controls
      && Render(r2).todo.items != []
  {
    var id := st.todos[k].id;
    var r := Step(st, TabToggle(st.todos[k], Resolved(reply)));
    assert r.todos == SetCompleted(st.todos, id, true);
    SetCompletedMoves(st.todos, k, true);
    assert |Section(r.todos, false)| == PageSize;
    SetCompletedKeepsUniqueIds(st.todos, id, true);
    assert r.todos[k].id == id && r.todos[k].completed;
    assert forall i :: 0 <= i < |r.todos| && r.todos[i].id == id ==> i == k;
    var r2 := Step(r, TabToggle(r.todos[k], Resolved(reply)));
    assert r2.todos == SetCompleted(r.todos, id, false);
    assert r2.todoPage == 2;
    SetCompletedMoves(r.todos, k, false);
    var section := Section(r2.todos, false);
    assert |section| == PageSize + 1;
    WindowContents(section, 2, PageSize);
  }

  /** Past the end the "next" button stays enabled while the section still
      overflows a page (it is disabled only on equality), so it pushes the
      cursor further past the end. */
  lemma NextPastEndStillEnabled(st: State)
    requires ControlsShown(|Section(st.todos, false)|, PageSize)
    requires st.todoPage > TotalPages(|Section(st.todos, false)|, PageSize)
    ensures Step(st, TodoNext).todoPage == st.todoPage + 1
    ensures Render(Step(st, TodoNext)).todo.items == []
  {
    PastLastPageEmpty(Section(st.todos, false), st.todoPage + 1, PageSize);
  }

  /** A new entry's key is fresh when no key in the list reads back as the
      service's new numeric id; then the add keeps ids unique. */
  lemma AddKeepsUniqueIds(st: State, t: ServerTodo)
    requires UniqueIds(st.todos)
    requires forall i :: 0 <= i < |st.todos| ==> IdString.Parse(st.todos[i].id) != Options.Some(t.id)
    ensures UniqueIds(AddTodo(st, Resolved(t)).todos)
  {
    IdString.ParseShow(t.id);
  }

  /** Every successful create in the session replies with a numeric id that
      no key then in the list reads back as. */
  ghost predicate FreshReplies(st: State, events: seq<Event>)
    decreases |events|
  {
    if events == [] then true
    else
      && (events[0].Add? && events[0].created.Resolved? ==>
            forall i :: 0 <= i < |st.todos| ==> IdString.Parse(st.todos[i].id) != Options.Some(events[0].created.value.id))
      && FreshReplies(Step(st, events[0]), events[1..])
  }

  /** When the service hands out fresh ids, every state of the session keeps
      ids unique, so the unique-id lemmas about toggling apply all along. */
  lemma {:induction false} RunKeepsUniqueIds(st: State, events: seq<Event>)
    requires UniqueIds(st.todos)
    requires FreshReplies(st, events)
    ensures UniqueIds(Run(st, events).todos)
    decreases |events|
  {
    if events != [] {
      var e := events[0];
      if e.Add? && e.created.Resolved? {
        AddKeepsUniqueIds(st, e.created.value);
      } else if e.Toggle? && e.updated.Resolved? {
        SetCompletedKeepsUniqueIds(st.todos, e.id, e.isCompleted);
      }
      RunKeepsUniqueIds(Step(st, e), events[1..]);
    }
  }
}

=== FILE: id_string.dfy ===
/**
  The decimal text of an integer id, as `Number.prototype.toString()` renders
  a whole number below 1e21: an optional minus sign, then digits with no
  leading zero. The list page keys its items by this text, so what matters is
  that the rendering can be read back, and hence that distinct ids never share
  a key.
*/
module IdString {
  import opened Options

  predicate IsDigit(c: char) {
    '0' <= c <= '9'
  }

  predicate AllDigits(s: string) {
    forall i :: 0 <= i < |s| ==> IsDigit(s[i])
  }

  /** A non-empty digit string without a superfluous leading zero. */
  predicate Canonical(s: string) {
    |s| >= 1 && AllDigits(s) && (|s| > 1 ==> s[0] != '0')
  }

  function DigitValue(c: char): (d: nat)
    requires IsDigit(c)
    ensures d < 10
  {
    (c as int) - ('0' as int)
  }

  function DigitChar(d: nat): (c: char)
    requires d < 10
    ensures IsDigit(c) && DigitValue(c) == d
  {
    (('0' as int) + d) as char
  }

  /** Decimal text of a natural number. */
  function ShowNat(n: nat): (r: string)
    ensures Canonical(r)
    ensures n >= 10 ==> |r| >= 2
    decreases n
  {
    if n < 10 then [DigitChar(n)] else ShowNat(n / 10) + [DigitChar(n % 10)]
  }

  /** The value of a digit string, most significant digit first. */
  function ReadNat(s: string): nat
    requires |s| >= 1 && AllDigits(s)
    decreases |s|
  {
    if |s| == 1 then DigitValue(s[0])
    else ReadNat(s[..|s| - 1]) * 10 + DigitValue(s[|s| - 1])
  }

  /** `id.toString()` for a whole-number id. */
  function Show(n: int): (r: string)
    ensures r != []
    ensures n >= 0 <==> IsDigit(r[0])
  {
    if n < 0 then "-" + ShowNat(-n) else ShowNat(n)
  }

  /** Reads back the text `Show` produces; anything else is rejected. */
  function Parse(s: string): Option<int> {
    if Canonical(s) then Some(ReadNat(s))
    else if |s| >= 2 && s[0] == '-' && Canonical(s[1..]) && ReadNat(s[1..]) != 0 then Some(0 - ReadNat(s[1..]) as int)
    else None
  }

  lemma {:induction false} ReadShowNat(n: nat)
    ensures ReadNat(ShowNat(n)) == n
    decreases n
  {
    if n >= 10 {
      var r := ShowNat(n);
      assert r[..|r| - 1] == ShowNat(n / 10);
      ReadShowNat(n / 10);
    }
  }

  /** Round trip: the rendered id parses back to the id. */
  lemma ParseShow(n: int)
    ensures Parse(Show(n)) == Some(n)
  {
    if n < 0 {
      var r := Show(n);
      assert r[1..] == ShowNat(-n);
      ReadShowNat(-n);
    } else {
      ReadShowNat(n);
    }
  }

  /** Distinct ids render as distinct keys. */
  lemma ShowInjective(a: int, b: int)
    requires Show(a) == Show(b)
    ensures a == b
  {
    ParseShow(a);
    ParseShow(b);
  }
}

=== FILE: local_home.dfy ===
/**
  A second, local-only version of the home page: no remote calls and no paging. A new
  item is appended incomplete under an id the caller supplies (the page takes
  the current time), a toggle rewrites `completed` by id, and both sections
  are rendered whole.
*/
module LocalHome {
  import opened TodoList

  /** `handleAddTodo`: append a new incomplete item. */
  function AddTodo(todos: seq<Todo>, freshId: string, text: string): (r: seq<Todo>)
    ensures |r| == |todos| + 1 && r[..|todos|] == todos
    ensures r[|todos|] == Todo(freshId, text, false)
    ensures Section(r, false) == Section(todos, false) + [Todo(freshId, text, false)]
    ensures Section(r, true) == Section(todos, true)
    ensures UniqueIds(todos) && (forall i :: 0 <= i < |todos| ==> todos[i].id != freshId) ==> UniqueIds(r)
  {
    var item := Todo(freshId, text, false);
    SectionAppend(todos, [item], false);
    SectionAppend(todos, [item], true);
    todos + [item]
  }

  /** `handleToggleTodo`: the same map-by-id as the paginated page. */
  function ToggleTodo(todos: seq<Todo>, id: string, isCompleted: bool): (r: seq<Todo>)
    ensures |r| == |todos|
    ensures forall i :: 0 <= i < |r| && todos[i].id != id ==> r[i] == todos[i]
    ensures forall i :: 0 <= i < |r| && todos[i].id == id ==> r[i] == todos[i].(completed := isCompleted)
  {
    SetCompleted(todos, id, isCompleted)
  }

  datatype Sections = Sections(incomplete: seq<Todo>, completed: seq<Todo>)

  /** The two unpaginated sections: a total, disjoint, order-keeping split of
      the list by completion. */
  function Render(todos: seq<Todo>): (v: Sections)
    ensures forall i :: 0 <= i < |v.incomplete| ==> !v.incomplete[i].completed
    ensures forall i :: 0 <= i < |v.completed| ==> v.completed[i].completed
    ensures |v.incomplete| + |v.completed| == |todos|
    ensures multiset(v.incomplete) + multiset(v.completed) == multiset(todos)
    ensures Interleaving(v.incomplete, v.completed, todos)
  {
    PartitionCounts(todos);
    PartitionInterleaves(todos);
    Sections(Section(todos, false), Section(todos, true))
  }

  /** Toggle to done and back: an item that started incomplete (and every
      other entry sharing its id) comes back exactly as it was. */
  lemma ToggleRoundTrip(todos: seq<Todo>, id: string)
    requires forall i :: 0 <= i < |todos| && todos[i].id == id ==> !todos[i].completed
    ensures ToggleTodo(ToggleTodo(todos, id, true), id, false) == todos
  {
    SetCompletedRevert(todos, id, false);
  }

  /** Adding an item then rendering shows it last in the TO DO section. */
  lemma AddThenRender(todos: seq<Todo>, freshId: string, text: string)
    ensures var v := Render(AddTodo(todos, freshId, text));
      && |v.incomplete| == |Render(todos).incomplete| + 1
      && v.incomplete[|v.incomplete| - 1] == Todo(freshId, text, false)
      && v.completed == Render(todos).completed
  {
  }
}

=== FILE: options.dfy ===
/** A value that may be absent. */
module Options {

  datatype Option<+T> = None | Some(value: T)
}

=== FILE: pagination.dfy ===
/**
  Per-section paging on the home page: a 1-based cursor, a fixed page size,
  the window `section.slice((page - 1) * size, (page - 1) * size + size)`,
  `Math.ceil(n / size)` pages, and the prev/next controls.
*/
module Pagination {

  /** `todoPageSize` and `donePageSize`: both sections page by ten. */
  const PageSize: nat := 10

  function Min(a: int, b: int): int { if a <= b then a else b }
  function Max(a: int, b: int): int { if a >= b then a else b }

  /** How `Array.prototype.slice` turns an argument into a position in a list
      of length `len` (section 23.1.3.28 of ECMAScript): a negative argument
      counts back from the end, and the result is clamped to `[0, len]`. */
  function ClampIndex(k: int, len: nat): (r: nat)
    ensures r <= len
    ensures 0 <= k ==> r == Min(k, len)
  {
    if k < 0 then Max(0, len + k) else Min(k, len)
  }

  /** `s.slice(start, end)`. For non-negative bounds it is the plain sub-range
      with both ends clamped to the length. */
  function Slice<T>(s: seq<T>, start: int, end: int): (r: seq<T>)
    ensures |r| <= |s|
    ensures start <= end ==> |r| <= end - start
    ensures forall i :: 0 <= i < |r| ==> r[i] in s
    ensures 0 <= start <= end ==> r == s[Min(start, |s|)..Min(end, |s|)]
  {
    var from := ClampIndex(start, |s|);
    var to := ClampIndex(end, |s|);
    if from < to then s[from..to] else []
  }

  /** The window of `section` shown on page `page`: whatever the cursor, at
      most one page of entries, all taken from the section. */
  function Window<T>(section: seq<T>, page: int, size: nat): (r: seq<T>)
    ensures |r| <= size
    ensures forall i :: 0 <= i < |r| ==> r[i] in section
  {
    var start := (page - 1) * size;
    Slice(section, start, start + size)
  }

  /** `Math.ceil(n / size)`: the fewest pages of `size` entries that hold `n`
      entries. */
  function TotalPages(n: nat, size: nat): (r: nat)
    requires size > 0
    ensures n <= r * size
    ensures r > 0 ==> (r - 1) * size < n
    ensures r == 0 <==> n == 0
  {
    var r := (n + size - 1) / size;
    assert r * size + (n + size - 1) % size == n + size - 1;
    assert (r - 1) * size == r * size - size;
    r
  }

  /** Pagination controls are rendered only when the section overflows one page. */
  predicate ControlsShown(n: nat, size: nat) {
    n > size
  }

  /** "prev" is disabled on page 1 only. */
  predicate PrevDisabled(page: int) {
    page == 1
  }

  /** "next" is disabled only when the cursor equals the page count. */
  predicate NextDisabled(page: int, total: nat) {
    page == total
  }

  /** The window of page `page >= 1` is the sub-range of its section starting
      at `(page - 1) * size`: `size` entries, fewer on a last partial page,
      none past the end. */
  lemma WindowContents<T>(section: seq<T>, page: int, size: nat)
    requires size > 0
    ensures page >= 1 ==> var w := Window(section, page, size);
      && |w| == Min(size, Max(0, |section| - (page - 1) * size))
      && forall i :: 0 <= i < |w| ==> w[i] == section[(page - 1) * size + i]
  {
    if page >= 1 {
      var start := (page - 1) * size;
      assert start >= 0;
    }
  }

  /** A non-empty section's last page holds between one and `size` entries:
      whatever the full pages before it leave over. */
  lemma LastPage<T>(section: seq<T>, size: nat)
    requires size > 0 && |section| > 0
    ensures var total := TotalPages(|section|, size);
      && total >= 1
      && |Window(section, total, size)| == |section| - (total - 1) * size
      && 1 <= |Window(section, total, size)| <= size
  {
    var n, total := |section|, TotalPages(|section|, size);
    var a := (total - 1) * size;
    LastPageStart(n, total, size);
    WindowContents(section, total, size);
    var w := Window(section, total, size);
    assert |w| == Min(size, Max(0, n - a));
    assert Max(0, n - a) == n - a;
  }

  /** The full pages before the last one start at a non-negative offset below
      `n` and leave at most one page over. */
  lemma LastPageStart(n: nat, total: nat, size: nat)
    requires size > 0 && total >= 1
    requires n <= total * size && (total - 1) * size < n
    ensures 0 <= (total - 1) * size < n <= (total - 1) * size + size
  {
    assert total * size == (total - 1) * size + size;
    MulMonotone(0, total - 1, size);
  }

  /** Every page after the last one is empty. */
  lemma PastLastPageEmpty<T>(section: seq<T>, page: int, size: nat)
    requires size > 0 && page > TotalPages(|section|, size)
    ensures Window(section, page, size) == []
  {
    var total := TotalPages(|section|, size);
    assert (page - 1) * size >= total * size by {
      assert page - 1 >= total;
    }
    WindowContents(section, page, size);
  }

  /** The windows of pages 1..k, one after the other. */
  ghost function Pages<T>(section: seq<T>, size: nat, k: nat): seq<T> {
    if k == 0 then [] else Pages(section, size, k - 1) + Window(section, k, size)
  }

  lemma {:induction false} PagesPrefix<T>(section: seq<T>, size: nat, k: nat)
    requires size > 0
    ensures Pages(section, size, k) == section[..Min(k * size, |section|)]
  {
    if k > 0 {
      PagesPrefix(section, size, k - 1);
      var a := (k - 1) * size;
      MulMonotone(0, k - 1, size);
      assert k * size == a + size;
      var lo, hi := Min(a, |section|), Min(a + size, |section|);
      assert Window(section, k, size) == Slice(section, a, a + size);
      assert Slice(section, a, a + size) == section[lo..hi];
      assert Pages(section, size, k) == section[..lo] + section[lo..hi];
      assert section[..lo] + section[lo..hi] == section[..hi];
    }
  }

  /** The pages tile the section: read in order, pages 1..TotalPages show
      every entry once and nothing else. */
  lemma PagesTile<T>(section: seq<T>, size: nat)
    requires size > 0
    ensures Pages(section, size, TotalPages(|section|, size)) == section
  {
    var total := TotalPages(|section|, size);
    PagesPrefix(section, size, total);
  }

  /** Controls are shown exactly when there is a second page to go to. */
  lemma ControlsMeanSeveralPages(n: nat, size: nat)
    requires size > 0
    ensures ControlsShown(n, size) <==> TotalPages(n, size) >= 2
  {
  }

  /** With the cursor on an existing page, "prev" is enabled exactly when an
      earlier page exists and "next" exactly when a later, non-empty page exists. */
  lemma ControlsInRange<T>(section: seq<T>, page: int, size: nat)
    requires size > 0 && 1 <= page <= TotalPages(|section|, size)
    ensures !PrevDisabled(page) <==> page > 1
    ensures !NextDisabled(page, TotalPages(|section|, size)) <==> Window(section, page + 1, size) != []
  {
    var total := TotalPages(|section|, size);
    if page < total {
      MulMonotone(page, total - 1, size);
      WindowContents(section, page + 1, size);
      assert (page + 1 - 1) * size == page * size;
    } else {
      PastLastPageEmpty(section, page + 1, size);
    }
  }

  /** Multiplying by a non-negative page size keeps the order of page numbers. */
  lemma MulMonotone(a: int, b: int, c: nat)
    requires a <= b
    ensures a * c <= b * c
  {
  }
}

=== FILE: text.dfy ===
/**
  `String.prototype.trim` as JavaScript defines it (ECMAScript section 22.1.3.32,
  TrimString): strip every leading and trailing code point that is WhiteSpace
  (section 12.2) or a LineTerminator (section 12.3).
*/
module Text {

  /** WhiteSpace: TAB, VT, FF, ZWNBSP, and every code point of Unicode category Zs;
      LineTerminator: LF, CR, LINE SEPARATOR, PARAGRAPH SEPARATOR. */
  predicate IsWhite(c: char) {
    var n := c as int;
    || n == 0x09 || n == 0x0B || n == 0x0C || n == 0xFEFF
    || n == 0x0A || n == 0x0D || n == 0x2028 || n == 0x2029
    || n == 0x20 || n == 0xA0 || n == 0x1680 || (0x2000 <= n <= 0x200A)
    || n == 0x202F || n == 0x205F || n == 0x3000
  }

  /** Every character of `s` is white space (vacuously true of ""). */
  predicate Blank(s: string) {
    forall i :: 0 <= i < |s| ==> IsWhite(s[i])
  }

  /** `s` neither starts nor ends with white space. */
  predicate Tight(s: string) {
    s != [] ==> !IsWhite(s[0]) && !IsWhite(s[|s| - 1])
  }

  /** The number of white characters at the front of `s`. */
  function LeadingWhite(s: string): (k: nat)
    ensures k <= |s|
    ensures Blank(s[..k])
    ensures k < |s| ==> !IsWhite(s[k])
    decreases |s|
  {
    if s == [] || !IsWhite(s[0]) then 0
    else
      var k := 1 + LeadingWhite(s[1..]);
      assert s[..k] == [s[0]] + s[1..][..k - 1];
      k
  }

  /** The number of white characters at the back of `s`. */
  function TrailingWhite(s: string): (k: nat)
    ensures k <= |s|
    ensures Blank(s[|s| - k..])
    ensures k < |s| ==> !IsWhite(s[|s| - k - 1])
    decreases |s|
  {
    if s == [] || !IsWhite(s[|s| - 1]) then 0
    else
      var init := s[..|s| - 1];
      var k := 1 + TrailingWhite(init);
      assert s[|s| - k..] == init[|init| - (k - 1)..] + [s[|s| - 1]];
      k
  }

  /** Where the trimmed middle of `s` starts and ends. */
  function TrimRange(s: string): (b: (nat, nat))
    ensures b.0 <= b.1 <= |s|
    ensures Blank(s[..b.0]) && Blank(s[b.1..])
    ensures b.0 < b.1 ==> !IsWhite(s[b.0]) && !IsWhite(s[b.1 - 1])
    ensures b.0 == b.1 ==> b.0 == |s|
  {
    var i := LeadingWhite(s);
    var rest := s[i..];
    var t := TrailingWhite(rest);
    assert s[|s| - t..] == rest[|rest| - t..];
    (i, |s| - t)
  }

  /** `s.trim()`: the middle of `s` left once the white space at both ends is
      cut away; its ends are not white, and it is empty exactly when `s` is blank. */
  function Trim(s: string): (r: string)
    ensures Tight(r)
    ensures r == [] <==> Blank(s)
  {
    var b := TrimRange(s);
    if b.0 == b.1 then
      assert s[..b.0] == s;
      []
    else
      NotBlank(s, b.0);
      s[b.0..b.1]
  }

  /** A string with a non-white character is not blank. */
  lemma NotBlank(s: string, k: nat)
    requires k < |s| && !IsWhite(s[k])
    ensures !Blank(s)
  {
  }

  /** Trimming only ever removes white space: `s` is white space, then the
      trimmed string, then white space. */
  lemma TrimSplits(s: string) returns (p: string, q: string)
    ensures s == p + Trim(s) + q
    ensures Blank(p) && Blank(q)
  {
    var b := TrimRange(s);
    p, q := s[..b.0], s[b.1..];
    assert s == p + s[b.0..b.1] + q;
  }

  /** Any way of writing `s` as white space, a tight middle and white space
      has the trimmed string as its middle: the characterisation of `trim`. */
  lemma TrimUnique(s: string, p: string, m: string, q: string)
    requires s == p + m + q
    requires Blank(p) && Blank(q) && Tight(m)
    ensures Trim(s) == m
  {
    if m == [] {
      assert Blank(s) by {
        forall k | 0 <= k < |s|
          ensures IsWhite(s[k])
        {
          if k < |p| { assert s[k] == p[k]; } else { assert s[k] == q[k - |p|]; }
        }
      }
    } else {
      var i := LeadingWhite(s);
      assert s[..|p|] == p;
      assert s[|p|] == m[0];
      assert i == |p|;
      var rest := s[i..];
      assert rest == m + q;
      var t := TrailingWhite(rest);
      assert rest[|rest| - |q|..] == q;
      assert rest[|rest| - 1 - |q|] == m[|m| - 1];
      assert t == |q|;
    }
  }

  /** Trimming twice is trimming once. */
  lemma TrimIdempotent(s: string)
    ensures Trim(Trim(s)) == Trim(s)
  {
    var m := Trim(s);
    assert m == [] + m + [];
    TrimUnique(m, [], m, []);
  }
}

=== FILE: todo_input.dfy ===
/**
  The add-a-task text box: it holds the typed text, submits it trimmed on the
  add button or the Enter key when it is not blank, then clears itself.
*/
module TodoInput {
  import opened Options
  import opened Text

  /** What one submit attempt does: the text handed to `onAdd`, if it was
      called, and the value the box holds afterwards. */
  datatype Submit = Submit(added: Option<string>, value: string)

  /** `handleAdd`. `hasOnAdd` says whether the optional `onAdd` callback was
      supplied; without it nothing is handed on but the box still clears. */
  function HandleAdd(value: string, hasOnAdd: bool): (r: Submit)
    ensures Blank(value) ==> r.added == None && r.value == value
    ensures !Blank(value) ==> r.value == "" && (r.added.Some? <==> hasOnAdd)
    ensures r.added.Some? ==> r.added.value == Trim(value) && r.added.value != "" && Tight(r.added.value)
  {
    var text := Trim(value);
    if text != "" then
      Submit(if hasOnAdd then Some(text) else None, "")
    else
      Submit(None, value)
  }

  /** `handleKeyPress`: only the Enter key submits. */
  function KeyPress(value: string, key: string, hasOnAdd: bool): (r: Submit)
    ensures key != "Enter" ==> r.added == None && r.value == value
    ensures key == "Enter" ==> r == HandleAdd(value, hasOnAdd)
  {
    if key == "Enter" then HandleAdd(value, hasOnAdd) else Submit(None, value)
  }

  /** The `isEmpty` flag handed to the add button: the box holds only white space. */
  function IsEmpty(value: string): (r: bool)
    ensures r <==> Blank(value)
  {
    Trim(value) == ""
  }

  /** `isEmpty` is false exactly when pressing the add button would hand text
      on. The flag only picks the button's colours: the button is never
      disabled, and on blank input a press does nothing. */
  lemma NotEmptyExactlyWhenSubmitting(value: string)
    ensures !IsEmpty(value) <==> HandleAdd(value, true).added.Some?
  {
  }

  /** The text handed on is already trimmed: a second guard would pass it
      through unchanged. */
  lemma AddedTextIsStable(value: string)
    requires HandleAdd(value, true).added.Some?
    ensures HandleAdd(HandleAdd(value, true).added.value, true).added == HandleAdd(value, true).added
  {
    TrimIdempotent(value);
  }
}

=== FILE: todo_list.dfy ===
/**
  The list state both versions of the home page keep: a flat sequence of
  `{id, text, completed}` records, the TO DO / DONE partition derived from it
  by two `filter`s, and the toggle that rewrites `completed` by id.
*/
module TodoList {

  datatype Todo = Todo(id: string, text: string, completed: bool)

  /** No two entries share an id. */
  predicate UniqueIds(todos: seq<Todo>) {
    forall i, j :: 0 <= i < j < |todos| ==> todos[i].id != todos[j].id
  }

  /** `todos.filter(t => t.completed == done)`: the DONE section when `done`
      holds, the TO DO section otherwise. */
  function Section(todos: seq<Todo>, done: bool): (r: seq<Todo>)
    ensures |r| <= |todos|
    ensures forall i :: 0 <= i < |r| ==> r[i].completed == done
    decreases |todos|
  {
    if todos == [] then []
    else if todos[0].completed == done then [todos[0]] + Section(todos[1..], done)
    else Section(todos[1..], done)
  }

  /** An entry is in a section exactly when it is in the list and has the
      section's completion state. */
  lemma {:induction false} SectionMembers(todos: seq<Todo>, done: bool, t: Todo)
    ensures t in Section(todos, done) <==> t in todos && t.completed == done
    decreases |todos|
  {
    if todos != [] {
      SectionMembers(todos[1..], done, t);
      assert todos == [todos[0]] + todos[1..];
    }
  }

  /** Every entry of a section is an entry of the list with that section's
      completion state. */
  lemma SectionEntries(todos: seq<Todo>, done: bool)
    ensures forall t :: t in Section(todos, done) ==> t in todos && t.completed == done
  {
    forall t | t in Section(todos, done)
      ensures t in todos && t.completed == done
    {
      SectionMembers(todos, done, t);
    }
  }

  /** `s` is a merge of `a` and `b`: every entry of `s` is taken, in order,
      from the front of exactly one of them, and both are used up. */
  ghost predicate Interleaving(a: seq<Todo>, b: seq<Todo>, s: seq<Todo>)
    decreases |s|
  {
    if s == [] then a == [] && b == []
    else
      || (a != [] && a[0] == s[0] && Interleaving(a[1..], b, s[1..]))
      || (b != [] && b[0] == s[0] && Interleaving(a, b[1..], s[1..]))
  }

  /** `a` occurs in `s` in order, possibly with gaps. */
  ghost predicate Subsequence(a: seq<Todo>, s: seq<Todo>)
    decreases |s|
  {
    if a == [] then true
    else if s == [] then false
    else (a[0] == s[0] && Subsequence(a[1..], s[1..])) || Subsequence(a, s[1..])
  }

  /** The two sections merge back into the list they were cut from. */
  lemma {:induction false} PartitionInterleaves(todos: seq<Todo>)
    ensures Interleaving(Section(todos, false), Section(todos, true), todos)
    decreases |todos|
  {
    if todos != [] {
      PartitionInterleaves(todos[1..]);
    }
  }

  /** A merge accounts for every entry exactly once. */
  lemma {:induction false} InterleavingCounts(a: seq<Todo>, b: seq<Todo>, s: seq<Todo>)
    requires Interleaving(a, b, s)
    ensures |a| + |b| == |s|
    ensures multiset(a) + multiset(b) == multiset(s)
    decreases |s|
  {
    if s != [] {
      assert s == [s[0]] + s[1..];
      if a != [] && a[0] == s[0] && Interleaving(a[1..], b, s[1..]) {
        InterleavingCounts(a[1..], b, s[1..]);
        assert a == [a[0]] + a[1..];
      } else {
        InterleavingCounts(a, b[1..], s[1..]);
        assert b == [b[0]] + b[1..];
      }
    }
  }

  /** Both halves of a merge keep the relative order of the merged list. */
  lemma {:induction false} InterleavingKeepsOrder(a: seq<Todo>, b: seq<Todo>, s: seq<Todo>)
    requires Interleaving(a, b, s)
    ensures Subsequence(a, s) && Subsequence(b, s)
    decreases |s|
  {
    if s != [] {
      if a != [] && a[0] == s[0] && Interleaving(a[1..], b, s[1..]) {
        InterleavingKeepsOrder(a[1..], b, s[1..]);
      } else {
        InterleavingKeepsOrder(a, b[1..], s[1..]);
      }
    }
  }

  /** The partition is total and disjoint: every entry lands in exactly one
      section, so the section sizes add up to the list size. */
  lemma PartitionCounts(todos: seq<Todo>)
    ensures |Section(todos, false)| + |Section(todos, true)| == |todos|
    ensures multiset(Section(todos, false)) + multiset(Section(todos, true)) == multiset(todos)
  {
    PartitionInterleaves(todos);
    InterleavingCounts(Section(todos, false), Section(todos, true), todos);
  }

  /** Each section is an ordered subsequence of the list. */
  lemma PartitionKeepsOrder(todos: seq<Todo>)
    ensures Subsequence(Section(todos, false), todos)
    ensures Subsequence(Section(todos, true), todos)
  {
    PartitionInterleaves(todos);
    InterleavingKeepsOrder(Section(todos, false), Section(todos, true), todos);
  }

  /** Conversely, any merge of an all-incomplete and an all-completed list is
      exactly the partition: the filters are the only such split. */
  lemma {:induction false} PartitionUnique(a: seq<Todo>, b: seq<Todo>, s: seq<Todo>)
    requires Interleaving(a, b, s)
    requires forall i :: 0 <= i < |a| ==> !a[i].completed
    requires forall i :: 0 <= i < |b| ==> b[i].completed
    ensures a == Section(s, false) && b == Section(s, true)
    decreases |s|
  {
    if s != [] {
      if a != [] && a[0] == s[0] && Interleaving(a[1..], b, s[1..]) {
        PartitionUnique(a[1..], b, s[1..]);
        assert a == [a[0]] + a[1..];
      } else {
        PartitionUnique(a, b[1..], s[1..]);
        assert b == [b[0]] + b[1..];
      }
    }
  }

  /** Filtering distributes over concatenation. */
  lemma {:induction false} SectionAppend(a: seq<Todo>, b: seq<Todo>, done: bool)
    ensures Section(a + b, done) == Section(a, done) + Section(b, done)
    decreases |a|
  {
    if a == [] {
      assert a + b == b;
    } else {
      assert (a + b)[0] == a[0];
      assert (a + b)[1..] == a[1..] + b;
      SectionAppend(a[1..], b, done);
    }
  }

  /** `todos.map(t => t.id === id ? {...t, completed: value} : t)`: every entry
      keeps its place, id and text; only the entries whose id matches take the
      new `completed` value. */
  function SetCompleted(todos: seq<Todo>, id: string, value: bool): (r: seq<Todo>)
    ensures |r| == |todos|
    ensures forall i :: 0 <= i < |r| ==> r[i].id == todos[i].id && r[i].text == todos[i].text
    ensures forall i :: 0 <= i < |r| ==> r[i].completed == (if todos[i].id == id then value else todos[i].completed)
    decreases |todos|
  {
    if todos == [] then []
    else
      var head := if todos[0].id == id then todos[0].(completed := value) else todos[0];
      [head] + SetCompleted(todos[1..], id, value)
  }

  /** Toggling an id that no entry carries changes nothing. */
  lemma SetCompletedAbsent(todos: seq<Todo>, id: string, value: bool)
    requires forall i :: 0 <= i < |todos| ==> todos[i].id != id
    ensures SetCompleted(todos, id, value) == todos
  {
    var r := SetCompleted(todos, id, value);
    assert forall i :: 0 <= i < |r| ==> r[i] == todos[i];
  }

  /** Toggle and toggle back: when every entry with the id started with
      `completed == value`, setting it to `!value` and then to `value` restores
      the list. */
  lemma SetCompletedRevert(todos: seq<Todo>, id: string, value: bool)
    requires forall i :: 0 <= i < |todos| && todos[i].id == id ==> todos[i].completed == value
    ensures SetCompleted(SetCompleted(todos, id, !value), id, value) == todos
  {
    var r := SetCompleted(SetCompleted(todos, id, !value), id, value);
    assert forall i :: 0 <= i < |r| ==> r[i] == todos[i];
  }

  /** Toggling keeps the ids, hence keeps them unique. */
  lemma SetCompletedKeepsUniqueIds(todos: seq<Todo>, id: string, value: bool)
    requires UniqueIds(todos)
    ensures UniqueIds(SetCompleted(todos, id, value))
  {
  }

  /** The section of a list cut around one entry `x`. */
  lemma SectionAround(before: seq<Todo>, x: Todo, after: seq<Todo>, done: bool)
    ensures |Section(before + [x] + after, done)|
         == |Section(before, done)| + (if x.completed == done then 1 else 0) + |Section(after, done)|
  {
    SectionAppend(before + [x], after, done);
    SectionAppend(before, [x], done);
  }

  /** Toggling the one entry with a given id to the other state moves it
      from its section to the other one: one section grows by one, the other
      shrinks by one, and the old entry is gone. */
  lemma SetCompletedMoves(todos: seq<Todo>, k: nat, value: bool)
    requires k < |todos|
    requires forall i :: 0 <= i < |todos| && todos[i].id == todos[k].id ==> i == k
    requires todos[k].completed != value
    ensures var r := SetCompleted(todos, todos[k].id, value);
      && |Section(r, value)| == |Section(todos, value)| + 1
      && |Section(r, !value)| + 1 == |Section(todos, !value)|
      && todos[k].(completed := value) in Section(r, value)
      && todos[k] !in r
  {
    var id := todos[k].id;
    var r := SetCompleted(todos, id, value);
    var before, after := todos[..k], todos[k + 1..];
    var moved := todos[k].(completed := value);
    SetCompletedSplit(todos, k, value);
    assert todos == before + [todos[k]] + after;
    SectionAround(before, todos[k], after, value);
    SectionAround(before, moved, after, value);
    SectionAround(before, todos[k], after, !value);
    SectionAround(before, moved, after, !value);
    assert r[k] == moved;
    SectionMembers(r, value, moved);
    forall i | 0 <= i < |r|
      ensures r[i] != todos[k]
    {
      if i != k {
        assert r[i].id == todos[i].id != id;
      }
    }
  }

  /** Toggling the one entry with a given id rewrites that entry alone. */
  lemma SetCompletedSplit(todos: seq<Todo>, k: nat, value: bool)
    requires k < |todos|
    requires forall i :: 0 <= i < |todos| && todos[i].id == todos[k].id ==> i == k
    ensures SetCompleted(todos, todos[k].id, value)
         == todos[..k] + [todos[k].(completed := value)] + todos[k + 1..]
  {
    var r := SetCompleted(todos, todos[k].id, value);
    var x := todos[..k] + [todos[k].(completed := value)] + todos[k + 1..];
    assert forall i :: 0 <= i < |r| ==> r[i] == x[i];
  }
}
